=== FILE: README.md ===
# NoksuLauncher in Dafny

A model of the logic of the NoksuLauncher panel (`NoksuLauncher.py`): five
launcher rows, each with a path field, a check box and a label, and the
user actions on them. These are "Browse", typing into a path field, Enter
in a path field, ticking a check box, "Launch Selected" and "Clear All",
plus loading the saved configuration at start-up.
The tkinter widgets become an immutable sequence of five `Slot`s. Every
action is a pure function from a `World` (the rows and the configuration
file) to a `Step`: the next world and the trace of outside `Effect`s it
emits. Those effects are OS calls, pauses, error dialogs, background Steam
lookups, saves and the load-failure message.

Modules, in dependency order:

| file | module | models |
|---|---|---|
| `wrappers.dfy` | `Wrappers` | `Option` |
| `strings.dfy` | `Strings` | `str.startswith`, `str.strip()`, `str.split(sep)[-1]` |
| `ntpath.dfy` | `NtPath` | Windows `os.path.basename` and `os.path.dirname` |
| `steam_api.dfy` | `SteamApi` | `get_steam_app_name` over a decoded JSON reply, and the label `async_steam_lookup` posts |
| `state.dfy` | `LauncherState` | rows, configuration document and file, effects, `save_config` |
| `labels.dfy` | `Labels` | `update_app_label`, and the completion of a lookup |
| `panel.dfy` | `PanelOps` | `browse_file`, `on_entry_enter`, `clear_all`, `load_config`, and the check box and field edits tkinter handles itself |
| `dispatch.dfy` | `Dispatch` | `launch_selected`: classifying paths and the batch over rows |
| `events.dfy` | `Events` | the event loop: user actions and returning lookups as one event type |

Where the code's behaviour is easy to misread:

- "Clear All" labels rows "(No file selected)". A fresh window labels them
  "(Nothing selected)". So clearing does not restore the initial state.
- A malformed configuration does not simply leave the default state.
  `load_config` fills rows until it fails. If `checked` is shorter than
  `entries`, the failing row keeps the entry text it was given, but not its
  flag or its label.
- `load_config` inserts each entry in front of whatever the field already
  holds. It does not replace the text. At start-up the fields are empty,
  so this makes no difference there.
- The lookup accepts any truthy `success` value, not just `true`. A falsy
  name, such as an empty string, gives "Steam App <id>" just like no name.
- Ticking a check box runs no callback. The flag reaches the file only at
  the next write ("Browse", Enter or "Launch Selected").
- Typing into a field without pressing Enter leaves the label describing
  the old text and saves nothing. "Launch Selected" still launches, and
  saves, the typed text.
- Enter labels the row from the stripped text. The field, and so the saved
  entry, keeps the raw text. "Launch Selected" also strips the path before
  using it.

## Model

| member | source | states |
|---|---|---|
| `Strings.Strip` | NoksuLauncher.py:72 | the result neither starts nor ends with whitespace, is what remains once whitespace padding is removed from both ends, and is empty exactly when the text is all whitespace |
| `Strings.StripUnique` | NoksuLauncher.py:127 | any text that is padded to the input by whitespace only, and has no whitespace at either end, is the stripped text |
| `Strings.StripIdempotent` | NoksuLauncher.py:127 | stripping an already stripped path changes nothing |
| `Strings.AfterLast` | NoksuLauncher.py:37 | `split(sep)[-1]`: a suffix with no separator in it, preceded by a separator unless it is the whole text |
| `Strings.AfterLastOfJoin` | NoksuLauncher.py:37 | the last segment of front + separator + a separator-free last part is that last part |
| `NtPath.DriveLength` | NoksuLauncher.py:42 | the drive `splitdrive` peels off: two characters exactly when the second character is a colon, none otherwise |
| `NtPath.Basename` | NoksuLauncher.py:42 | a suffix of the path after the drive, holding no separator, preceded by a separator when it does not reach back to the drive |
| `NtPath.BasenameOfJoin` | NoksuLauncher.py:42 | the basename of directory + separator + a separator-free name is that name |
| `NtPath.KeptLength` | NoksuLauncher.py:82 | the cut `dirname` makes lies between the drive and the final component, only separators follow it, a head made only of separators (a root) is kept whole, and otherwise the cut never ends in a separator |
| `NtPath.Dirname` | NoksuLauncher.py:82 | a prefix of the path that keeps the drive and ends before the basename, with only separators in the gap; a root head such as the `\` of `C:\x` is kept, and no other trailing separator is |
| `NtPath.DirnameOfJoin` | NoksuLauncher.py:82 | the dirname of directory + separator + name is the directory, when the directory goes beyond the drive and does not end in a separator |
| `NtPath.DirnameUnderDriveRoot` | NoksuLauncher.py:82 | a file directly under a drive root runs in the root itself: the dirname of `C:\x` is `C:\` |
| `SteamApi.GetSteamAppName` | NoksuLauncher.py:58-67 | a name is returned exactly when a reply arrived, `reply[appid]["success"]` exists and is truthy, and `reply[appid]["data"]["name"]` exists; the name returned is that value |
| `SteamApi.FoundAppYieldsName` | NoksuLauncher.py:63-64 | a reply with `success: true` and a `data.name` string yields that string |
| `SteamApi.NoNameWithoutSuccess` | NoksuLauncher.py:63-67 | a failed request, a missing app-ID key, and an absent or falsy `success` all yield no name |
| `SteamApi.FalseSuccessYieldsNone` | NoksuLauncher.py:63 | `success: false` yields no name even when the reply carries data |
| `SteamApi.LookupLabel` | NoksuLauncher.py:50-54 | a truthy name gives its text (the string itself, or `show` of another JSON value) followed by " (Steam)"; no name or a falsy one gives "Steam App <appid>"; the result is never the placeholder |
| `SteamApi.CompletedLabelIsFinal` | NoksuLauncher.py:50-56 | whatever the reply, the posted label is not "Fetching Steam name...", and a failed request gives "Steam App <appid>" |
| `LauncherState.Fresh` | NoksuLauncher.py:145-156 | the window starts with five rows, each with an empty field, unchecked, and labelled "(Nothing selected)" |
| `LauncherState.Snapshot` | NoksuLauncher.py:94-97 | the saved document has one entry and one flag per row, aligned by index, holding the raw field text and the box |
| `LauncherState.SnapshotIgnoresLabels` | NoksuLauncher.py:94-97 | two panels save the same document exactly when their rows agree on text and check box |
| `LauncherState.SaveConfig` | NoksuLauncher.py:92-99 | saving leaves the rows unchanged, stores exactly the rows' snapshot, and emits one save of that document |
| `Labels.LabelFor` | NoksuLauncher.py:29-46 | empty path: "(Nothing selected)"; a `steam://rungameid/` path, and only such a path: "Fetching Steam name..." and a lookup of the text after the last "/"; otherwise the basename, or "(No file selected)" when it is empty; the label is never empty |
| `Labels.PlainPathLabel` | NoksuLauncher.py:42-44 | a non-Steam path ending in separator + name is labelled with that name and starts no lookup |
| `Labels.RootPathLabel` | NoksuLauncher.py:45-46 | a non-Steam path ending in a separator is labelled "(No file selected)" |
| `Labels.SteamLinkLabel` | NoksuLauncher.py:35-37 | `steam://rungameid/<id>` shows the placeholder and looks up `<id>` |
| `Labels.ExecutableLabelExample` | NoksuLauncher.py:42-44 | `C:\Games\app.exe` is labelled "app.exe" |
| `Labels.SteamLabelExample` | NoksuLauncher.py:35-37 | `steam://rungameid/440` shows the placeholder and looks up "440" |
| `Labels.LookupEffects` | NoksuLauncher.py:39 | at most one effect, present exactly when the label asks for a lookup, and then it is the lookup of that app ID for the row being labelled |
| `Labels.Relabel` | NoksuLauncher.py:29-46 | only row `i`'s label changes, to the derived label, and the only effect is the lookup for that label |
| `Labels.CompleteLookup` | NoksuLauncher.py:56 | a returning lookup sets row `i`'s label to the lookup label for the store's answer ("<name> (Steam)" or "Steam App <appid>"), never the placeholder; no other row, no field or box, and not the file changes, and it emits nothing |
| `Dispatch.Classify` | NoksuLauncher.py:76-87 | first match wins: `steam://`, then `http://` or `https://`, then an existing file, then an existing directory, then anything else |
| `Dispatch.LinksIgnoreFileSystem` | NoksuLauncher.py:76-80 | links are classified by their text alone |
| `Dispatch.WorkingDir` | NoksuLauncher.py:82 | `dirname(path) or None`: the dirname when it is not empty, none exactly when it is empty |
| `Dispatch.Call` | NoksuLauncher.py:76-87 | links, and only links, are opened as URIs, and the URI is the path; an existing file is spawned as itself in its working directory; everything else goes to the default open action on the path |
| `Dispatch.UnknownPathIsOpenedAnyway` | NoksuLauncher.py:86-87 | a path that is no link, file or directory still goes to the default open action |
| `Dispatch.SteamLinkNeverSpawned` | NoksuLauncher.py:76-77 | a `steam://` path is opened as a URI even when a file of that name exists |
| `Dispatch.Attempt` | NoksuLauncher.py:71-74 | a row makes a call exactly when it is checked and its stripped text is not empty, and the call is the one made for the stripped text |
| `Dispatch.RowEffects` | NoksuLauncher.py:71-89 | a row's effects all carry its index, are empty exactly when it makes no call, start with its one call, and when a call is made hold exactly one more effect when it raises or opens a Steam link and none otherwise: the 3-second pause exactly when a Steam link opened without raising, the "Launch Error" dialog with the path and the exception text when the call raised |
| `Dispatch.CallEffects` | NoksuLauncher.py:75-89 | one call, followed by exactly one more effect when it raises or opens a Steam link and by nothing otherwise: the "Launch Error" dialog with the path and the exception text when it raises, or the 3-second pause exactly when it opened a Steam link without raising; one error counted when it raises, none otherwise |
| `Dispatch.LaunchEffects` | NoksuLauncher.py:70-89 | every effect of the loop belongs to one of the rows |
| `Dispatch.LaunchEffectsUnrolled` | NoksuLauncher.py:70-89 | for the panel's five rows the batch is row 0's effects, then row 1's, through row 4's, with nothing else between them |
| `Dispatch.LaunchSelected` | NoksuLauncher.py:69-90 | the rows are unchanged, the document is stored, and the trace is the loop's row effects followed by the one and only save |
| `Dispatch.LaunchInRowOrder` | NoksuLauncher.py:70 | row effects appear in index order |
| `Dispatch.LaunchReachesRow` | NoksuLauncher.py:70-87 | every checked, non-blank row is called, whatever happened to earlier rows |
| `Dispatch.LaunchSkipsRow` | NoksuLauncher.py:71-74 | an unchecked or blank row has no effect at all |
| `Dispatch.LaunchErrorsPerRow` | NoksuLauncher.py:88-89 | a row whose call raises gets exactly one error dialog; every other row gets none |
| `Dispatch.NothingCheckedOnlySaves` | NoksuLauncher.py:90 | with no row checked the whole trace is the single save |
| `Dispatch.MiddleFailureDoesNotStopBatch` | NoksuLauncher.py:75-89 | five checked rows where only row 2 raises: one dialog for row 2, none for the others, and rows 3 and 4 are still called |
| `PanelOps.Commit` | NoksuLauncher.py:24-27 | only row `i` changes, to the new text and the derived label; the file holds the new rows; the effects are the label's lookup and then one save |
| `PanelOps.Browse` | NoksuLauncher.py:21-27 | a cancelled dialog changes nothing and emits nothing; a chosen path changes only row `i`'s text and label, and the trace is that label's lookup, if any, then one save |
| `PanelOps.EnterPressed` | NoksuLauncher.py:125-129 | the label follows the stripped text, the field and the saved entry keep the raw text, no other row changes, and the trace is the label's lookup, if any, then one save |
| `PanelOps.ClearAll` | NoksuLauncher.py:116-123 | every row is emptied, unchecked and labelled "(No file selected)"; the file is gone and nothing is saved |
| `PanelOps.Toggle` | NoksuLauncher.py:145-146 | a click flips only that row's check box; text, label and the file stay as they were, and nothing is emitted |
| `PanelOps.Edit` | NoksuLauncher.py:153-155 | editing a field changes only that field's text; its label, check box and the file stay as they were, and nothing is emitted |
| `PanelOps.ToggleTwiceRestores` | NoksuLauncher.py:145-146 | two clicks on the same box restore the window |
| `PanelOps.LoadLimit` | NoksuLauncher.py:108 | the loop visits `min(5, len(entries))` rows |
| `PanelOps.LoadedCount` | NoksuLauncher.py:111 | the rows completed before a missing `checked[i]` stops the loop |
| `PanelOps.LoadRows` | NoksuLauncher.py:108-114 | rows before the failure are loaded, the failing row keeps only its inserted entry, every other row is untouched; the trace is exactly the loaded rows' lookups in row order followed by the failure message when loading stopped early |
| `PanelOps.LoadRow` | NoksuLauncher.py:109-112 | one loaded row: its entry gets the path inserted in front, its check box the stored flag, its label the one derived from the path; the only effect is that label's lookup; other rows are untouched |
| `PanelOps.LoadLookups` | NoksuLauncher.py:108-112 | every effect is the lookup of a Steam row in the range, for that row's app id, and every Steam row in the range has its lookup |
| `PanelOps.LoadTrace` | NoksuLauncher.py:108-114 | in a load's trace the failure message appears exactly when loading stopped early, every other effect is a loaded row's lookup, and every loaded Steam row's lookup is there |
| `PanelOps.Load` | NoksuLauncher.py:101-114 | a missing file changes nothing; an unreadable one only logs; otherwise rows up to the failure are loaded, the failing row keeps only its inserted entry, later rows are untouched; the trace is exactly the lookups of the loaded Steam rows in row order, then the failure message when `checked` ran out first; so the failure is logged exactly when it happens, every loaded Steam row starts its lookup, and nothing else is emitted |
| `PanelOps.SaveThenLoadRestores` | NoksuLauncher.py:94-112 | saving and loading into a fresh window restores every row's text and check box, with the label derived from the text |
| `PanelOps.LoadStoredRows` | NoksuLauncher.py:108-112 | a document with five entries and five flags loads every row |
| `PanelOps.LoadedFreshRow` | NoksuLauncher.py:110-112 | loading a saved row into an empty field gives back its text and flag |
| `PanelOps.ClearThenLoadStaysCleared` | NoksuLauncher.py:103-104 | after "Clear All" loading finds no file and changes nothing |
| `PanelOps.ClearedDiffersFromFresh` | NoksuLauncher.py:116-121 | every cleared row differs from the row a fresh window shows |
| `PanelOps.BlankEntryLabel` | NoksuLauncher.py:127-129 | Enter on an all-whitespace field labels it "(Nothing selected)" and saves the whitespace |
| `PanelOps.ShortCheckedListStopsLoad` | NoksuLauncher.py:108-114 | with three entries and one flag, row 0 loads, row 1 gets only its entry text, and rows 2 to 4 are untouched |
| `Events.Handle` | NoksuLauncher.py:141-189 | every event keeps five rows with non-empty labels, keeps a well-shaped file well-shaped, and leaves one after a writing action |
| `Events.BrowseKeepsShape` | NoksuLauncher.py:21-27 | browsing keeps every label non-empty, and a chosen path leaves a five-entry file |
| `Events.EnterKeepsShape` | NoksuLauncher.py:125-129 | Enter keeps every label non-empty and leaves a five-entry file |
| `Events.LookupKeepsShape` | NoksuLauncher.py:56 | a returning lookup keeps every label non-empty and does not touch the file |
| `Events.Run` | NoksuLauncher.py:191-194 | a sequence of events keeps five labelled rows and a well-shaped file |
| `Events.FreshInstallCanLaunch` | NoksuLauncher.py:141-175 | on a fresh install, typing a path into the first row, ticking its box and clicking "Launch Selected" makes that row's call for the stripped path |
| `Events.TypedThenLaunched` | NoksuLauncher.py:145-175 | typed text is launched once its row is ticked, while the row's label still describes the old text |
| `Events.ClearThenRestartIsFresh` | NoksuLauncher.py:116-123 | after "Clear All" and a restart the window is exactly a fresh install: every row empty, unchecked and "(Nothing selected)" |
| `Events.Startup` | NoksuLauncher.py:191-192 | after building and loading, the window has five rows with non-empty labels and the file is untouched |
| `Events.StartupRestoresSave` | NoksuLauncher.py:92-112 | a window started from what `save_config` wrote shows every row's text and check box as saved, labelled from its text |
| `Events.LoadKeepsShown` | NoksuLauncher.py:108-114 | loading keeps every row's label non-empty |
| `Events.StaleLookupOverwrites` | NoksuLauncher.py:56 | a lookup that returns after its row got a new path still overwrites that row's label |
| `Events.FileStaysWellShaped` | NoksuLauncher.py:92-99 | once a writing action has run, the file is absent or holds five entries and five flags, whatever follows |

## Left out

- Widgets, layout, fonts and colours, and the main loop itself. The event loop is `Events.Run` over a sequence of events.
- The frozen-bundle setup of `TCL_LIBRARY` and `TK_LIBRARY`. It is packaging, not behaviour.
- The HTTP request, its URL and its 3-second timeout, and `response.json()`. A request's outcome is a `Response`: a decoded JSON value or `Failed`.
- Threads and `root.after`. Starting a lookup is a `StartLookup` effect. Its completion is a `LookupReturned` event that may arrive at any point, carrying any reply.
- `time.sleep(3)`. It is the `Paused` effect and has no other behaviour.
- `webbrowser.open`, `subprocess.Popen(..., shell=True)` and `os.startfile`. They are `Called` effects. Whether a call raises, and with which message, is the `Os.failure` input, and `isfile`/`isdir` are `Os` inputs too. The shell's interpretation of the path is not modelled.
- The file dialog. Its answer is the `choice` of a `ChoseFile` event.
- File I/O of the configuration: `json.dump`, `json.load`, `open` and `os.remove`. Their failures (a disk error while saving or removing) are not modelled. An unreadable or non-object file is `Unreadable`.
- Configuration values of the wrong JSON type, such as a number as an entry, which would make `update_app_label` raise. Entries are strings and flags are booleans.
- UNC share prefixes in `ntpath`. Only drive-letter prefixes are modelled.
- Python's `str()` of a non-string truthy name. It is the `show` parameter.
- A machine whose state changes during a launch. `isFile`, `isDir` and `failure` are fixed for the whole batch, so two rows making the same call share one outcome.
- JSON's `NaN` and `Infinity`, which Python's `json` accepts. `JNum` holds a real number, so these values are not modelled.

=== FILE: dispatch.dfy ===
/**
 * "Launch Selected" (`launch_selected`): every checked row with a
 * non-blank path is classified and handed to the operating system, in row
 * order; a failing row gets one error dialog and the batch goes on; the
 * configuration is saved once at the end. The file-system predicates and
 * whether an OS call raises are inputs: the `Os` the launch runs against.
 */
module Dispatch {
  import opened Wrappers
  import opened Strings
  import opened NtPath
  import opened LauncherState

  /** What the launcher can observe of, and suffer from, the machine:
      `os.path.isfile`, `os.path.isdir`, and the message of the exception a
      call raises, if it raises. */
  datatype Os = Os(isFile: string -> bool, isDir: string -> bool, failure: OsCall -> Option<string>)

  /** The five kinds of path, in the order they are tried. */
  datatype Target = SteamLink | WebLink | ExistingFile | ExistingDir | Other

  const SteamScheme := "steam://"
  /** Seconds the launcher sleeps after opening a Steam link. */
  const SteamLaunchPause: nat := 3
  const LaunchErrorTitle := "Launch Error"

  predicate IsWebLink(path: string) {
    StartsWith(path, "http://") || StartsWith(path, "https://")
  }

  /** First match wins: Steam link, web link, existing file, existing
      directory, anything else. */
  function Classify(path: string, os: Os): (t: Target)
    ensures t == SteamLink <==> StartsWith(path, SteamScheme)
    ensures t == WebLink <==> !StartsWith(path, SteamScheme) && IsWebLink(path)
    ensures t == ExistingFile <==> !StartsWith(path, SteamScheme) && !IsWebLink(path) && os.isFile(path)
    ensures t == ExistingDir <==>
              !StartsWith(path, SteamScheme) && !IsWebLink(path) && !os.isFile(path) && os.isDir(path)
  {
    if StartsWith(path, SteamScheme) then SteamLink
    else if IsWebLink(path) then WebLink
    else if os.isFile(path) then ExistingFile
    else if os.isDir(path) then ExistingDir
    else Other
  }

  /** Links are classified by their text alone: the file system is never
      consulted for them. */
  lemma LinksIgnoreFileSystem(path: string, a: Os, b: Os)
    requires StartsWith(path, SteamScheme) || IsWebLink(path)
    ensures Classify(path, a) == Classify(path, b)
  {
  }

  /** `os.path.dirname(path) or None`: the directory a program is started in. */
  function WorkingDir(path: string): (cwd: Option<string>)
    ensures cwd.None? <==> Dirname(path) == ""
    ensures cwd.Some? ==> cwd.value == Dirname(path)
    ensures cwd.Some? ==> cwd.value != "" && |cwd.value| <= |path| && cwd.value == path[..|cwd.value|]
  {
    var d := Dirname(path);
    if d == "" then None else Some(d)
  }

  /** The OS call made for a path. */
  function Call(path: string, os: Os): (c: OsCall)
    ensures c.OpenUri? <==> StartsWith(path, SteamScheme) || IsWebLink(path)
    ensures c.OpenUri? ==> c.uri == path
    ensures c.Spawn? ==> c.path == path && c.cwd == WorkingDir(path) && os.isFile(path)
    ensures c.StartFile? ==> c.path == path && !os.isFile(path)
  {
    match Classify(path, os)
    case SteamLink => OpenUri(path)
    case WebLink => OpenUri(path)
    case ExistingFile => Spawn(path, WorkingDir(path))
    case ExistingDir => StartFile(path)
    case Other => StartFile(path)
  }

  /** A path that is neither a link, a file nor a directory is still handed
      to the default "open" action: there is no existence check. */
  lemma UnknownPathIsOpenedAnyway(path: string, os: Os)
    requires !StartsWith(path, SteamScheme) && !IsWebLink(path)
    requires !os.isFile(path) && !os.isDir(path)
    ensures Call(path, os) == StartFile(path)
  {
  }

  /** A Steam link is never started as a program, even when a file of
      that name exists. */
  lemma SteamLinkNeverSpawned(path: string, os: Os)
    requires StartsWith(path, SteamScheme)
    ensures Call(path, os) == OpenUri(path)
  {
  }

  /** The call a row makes when launched: only a checked row whose stripped
      text is not empty makes one. */
  function Attempt(slot: Slot, os: Os): (c: Option<OsCall>)
    ensures c.Some? <==> slot.checked && Strip(slot.text) != ""
    ensures c.Some? ==> c.value == Call(Strip(slot.text), os)
  {
    if slot.checked && Strip(slot.text) != "" then Some(Call(Strip(slot.text), os)) else None
  }

  /** The row's call raises. */
  predicate RowFails(slot: Slot, os: Os) {
    Attempt(slot, os).Some? && os.failure(Attempt(slot, os).value).Some?
  }

  function LaunchErrorMessage(path: string, err: string): string {
    "Failed to launch:\n" + path + "\n\n" + err
  }

  /** The body of the loop for row `i`. A raising call is followed by its
      error dialog (and, for a Steam link, no pause). */
  function RowEffects(i: nat, slot: Slot, os: Os): (e: seq<Effect>)
    ensures forall x :: x in e ==> HasRow(x) && x.row == i
    ensures e == [] <==> Attempt(slot, os).None?
    ensures e != [] ==> e[0] == Called(i, Attempt(slot, os).value)
    ensures |e| <= 2 && forall k :: 0 < k < |e| ==> !e[k].Called?
    ensures Paused(i, SteamLaunchPause) in e <==>
              Attempt(slot, os).Some? && Classify(Strip(slot.text), os) == SteamLink && !RowFails(slot, os)
    ensures RowFails(slot, os) ==>
              |e| == 2 && e[1] == ErrorDialog(i, LaunchErrorTitle,
                                              LaunchErrorMessage(Strip(slot.text), os.failure(Attempt(slot, os).value).value))
    ensures Attempt(slot, os).Some? ==>
              |e| == (if RowFails(slot, os) || Classify(Strip(slot.text), os) == SteamLink then 2 else 1)
    ensures CountErrors(e, i) == (if RowFails(slot, os) then 1 else 0)
  {
    match Attempt(slot, os)
    case None => []
    case Some(call) => CallEffects(i, call, Strip(slot.text), os)
  }

  /** The effects of row `i` making `call` for `path`: the call, then the
      error dialog if it raises, or the pause if it opened a Steam link. */
  function CallEffects(i: nat, call: OsCall, path: string, os: Os): (e: seq<Effect>)
    ensures forall x :: x in e ==> HasRow(x) && x.row == i
    ensures 1 <= |e| <= 2 && e[0] == Called(i, call) && forall k :: 0 < k < |e| ==> !e[k].Called?
    ensures Paused(i, SteamLaunchPause) in e <==> Classify(path, os) == SteamLink && os.failure(call).None?
    ensures os.failure(call).Some? ==>
              |e| == 2 && e[1] == ErrorDialog(i, LaunchErrorTitle, LaunchErrorMessage(path, os.failure(call).value))
    ensures |e| == (if os.failure(call).Some? || Classify(path, os) == SteamLink then 2 else 1)
    ensures CountErrors(e, i) == (if os.failure(call).Some? then 1 else 0)
  {
    match os.failure(call)
    case Some(err) =>
      var e := [Called(i, call), ErrorDialog(i, LaunchErrorTitle, LaunchErrorMessage(path, err))];
      CountErrorsAppend([e[0]], [e[1]], i);
      CountErrorsOne(e[0], i);
      CountErrorsOne(e[1], i);
      assert e == [e[0]] + [e[1]];
      e
    case None =>
      var pause := if Classify(path, os) == SteamLink then [Paused(i, SteamLaunchPause)] else [];
      var e := [Called(i, call)] + pause;
      CountErrorsAppend([Called(i, call)], pause, i);
      CountErrorsOne(Called(i, call), i);
      CountErrorsOne(Paused(i, SteamLaunchPause), i);
      e
  }

  /** The error dialogs a trace shows for row `row`. */
  function CountErrors(effects: seq<Effect>, row: nat): nat {
    if effects == [] then 0
    else (if effects[0].ErrorDialog? && effects[0].row == row then 1 else 0) + CountErrors(effects[1..], row)
  }

  lemma CountErrorsOne(x: Effect, row: nat)
    ensures CountErrors([x], row) == (if x.ErrorDialog? && x.row == row then 1 else 0)
  {
    assert [x][1..] == [];
  }

  lemma {:induction false} CountErrorsAppend(a: seq<Effect>, b: seq<Effect>, row: nat)
    ensures CountErrors(a + b, row) == CountErrors(a, row) + CountErrors(b, row)
  {
    if a == [] {
      assert a + b == b;
    } else {
      assert (a + b)[1..] == a[1..] + b;
      CountErrorsAppend(a[1..], b, row);
    }
  }

  /** A trace without an effect for `row` shows it no error. */
  lemma {:induction false} NoErrorsWithoutRow(effects: seq<Effect>, row: nat)
    requires forall x :: x in effects ==> HasRow(x) && x.row != row
    ensures CountErrors(effects, row) == 0
  {
    if effects != [] {
      assert effects[0] in effects;
      NoErrorsWithoutRow(effects[1..], row);
    }
  }

  /** Row effects appear in non-decreasing row order. */
  predicate InRowOrder(e: seq<Effect>) {
    forall a, b :: 0 <= a < b < |e| ==> HasRow(e[a]) && HasRow(e[b]) && e[a].row <= e[b].row
  }

  /** `parts[j]` holds only effects of row `j`. */
  predicate Tagged(parts: seq<seq<Effect>>) {
    forall j, x :: 0 <= j < |parts| && x in parts[j] ==> HasRow(x) && x.row == j
  }

  /** The parts from `from` on, one after the other. */
  function Flatten(parts: seq<seq<Effect>>, from: nat): (e: seq<Effect>)
    decreases |parts| - from
    ensures Tagged(parts) ==>
              forall x :: x in e ==> HasRow(x) && from <= x.row < |parts| && x in parts[x.row]
  {
    if from >= |parts| then [] else parts[from] + Flatten(parts, from + 1)
  }

  /** Flattening tagged parts keeps the rows in order. */
  lemma {:induction false} FlattenInRowOrder(parts: seq<seq<Effect>>, from: nat)
    requires Tagged(parts)
    decreases |parts| - from
    ensures InRowOrder(Flatten(parts, from))
  {
    if from < |parts| {
      FlattenInRowOrder(parts, from + 1);
      var head, tail := parts[from], Flatten(parts, from + 1);
      var e := head + tail;
      forall a, b | 0 <= a < b < |e|
        ensures HasRow(e[a]) && HasRow(e[b]) && e[a].row <= e[b].row
      {
        if b < |head| {
          assert e[a] == head[a] && head[a] in head;
          assert e[b] == head[b] && head[b] in head;
        } else if a < |head| {
          assert e[a] == head[a] && head[a] in head;
          assert e[b] == tail[b - |head|] && tail[b - |head|] in tail;
        } else {
          assert e[a] == tail[a - |head|] && e[b] == tail[b - |head|];
        }
      }
    }
  }

  /** Every effect of a part at or after `from` is in the flattening. */
  lemma {:induction false} FlattenContains(parts: seq<seq<Effect>>, from: nat, j: nat, x: Effect)
    requires from <= j < |parts| && x in parts[j]
    decreases j - from
    ensures x in Flatten(parts, from)
  {
    assert Flatten(parts, from) == parts[from] + Flatten(parts, from + 1);
    if from < j {
      FlattenContains(parts, from + 1, j, x);
    }
  }

  /** Empty parts flatten to nothing. */
  lemma {:induction false} FlattenEmpty(parts: seq<seq<Effect>>, from: nat)
    requires forall j :: from <= j < |parts| ==> parts[j] == []
    decreases |parts| - from
    ensures Flatten(parts, from) == []
  {
    if from < |parts| {
      FlattenEmpty(parts, from + 1);
    }
  }

  /** The error dialogs for row `i` in the flattening are those of part `i`. */
  lemma {:induction false} FlattenErrors(parts: seq<seq<Effect>>, from: nat, i: nat)
    requires Tagged(parts)
    decreases |parts| - from
    ensures CountErrors(Flatten(parts, from), i) ==
              (if from <= i < |parts| then CountErrors(parts[i], i) else 0)
  {
    if from < |parts| {
      CountErrorsAppend(parts[from], Flatten(parts, from + 1), i);
      FlattenErrors(parts, from + 1, i);
      if from != i {
        NoErrorsWithoutRow(parts[from], i);
      }
    }
  }

  /** Each row's effects, in row order. */
  function PerRow(slots: seq<Slot>, os: Os): (parts: seq<seq<Effect>>)
    ensures |parts| == |slots| && Tagged(parts)
    ensures forall j :: 0 <= j < |slots| ==> parts[j] == RowEffects(j, slots[j], os)
  {
    seq(|slots|, j requires 0 <= j < |slots| => RowEffects(j, slots[j], os))
  }

  /** The loop of `launch_selected`: rows 0 to 4, one after the other. */
  function LaunchEffects(slots: seq<Slot>, os: Os): (e: seq<Effect>)
    ensures forall x :: x in e ==> HasRow(x) && x.row < |slots|
  {
    Flatten(PerRow(slots, os), 0)
  }

  /** The batch for the panel's five rows is the rows' own effects, one
      row after the other, with nothing in between. */
  lemma LaunchEffectsUnrolled(slots: seq<Slot>, os: Os)
    requires |slots| == SlotCount
    ensures LaunchEffects(slots, os)
         == RowEffects(0, slots[0], os) + (RowEffects(1, slots[1], os) + (RowEffects(2, slots[2], os)
          + (RowEffects(3, slots[3], os) + RowEffects(4, slots[4], os))))
  {
    var parts := PerRow(slots, os);
    assert LaunchEffects(slots, os) == Flatten(parts, 0);
    assert Flatten(parts, 4) == parts[4] + Flatten(parts, 5) == parts[4];
    assert Flatten(parts, 3) == parts[3] + parts[4];
    assert Flatten(parts, 2) == parts[2] + (parts[3] + parts[4]);
    assert Flatten(parts, 1) == parts[1] + (parts[2] + (parts[3] + parts[4]));
    assert Flatten(parts, 0) == parts[0] + (parts[1] + (parts[2] + (parts[3] + parts[4])));
  }

  /** `launch_selected()`: the rows' effects, then exactly one save; the
      panel itself does not change. */
  function LaunchSelected(w: World, os: Os): (s: Step)
    requires Valid(w)
    ensures s.world.slots == w.slots && s.world.config == Stored(Snapshot(w.slots))
    ensures s.effects == LaunchEffects(w.slots, os) + [Saved(Snapshot(w.slots))]
    ensures s.effects[|s.effects| - 1] == Saved(Snapshot(w.slots))
    ensures forall k :: 0 <= k < |s.effects| - 1 ==> HasRow(s.effects[k]) && s.effects[k].row < SlotCount
    ensures SaveCount(s.effects) == 1
  {
    var rows := LaunchEffects(w.slots, os);
    var saved := SaveConfig(w);
    RowsThenSave(rows, Snapshot(w.slots));
    Step(saved.world, rows + saved.effects)
  }

  /** Row effects followed by one save: the save comes last, and it is the
      only one. */
  lemma RowsThenSave(rows: seq<Effect>, doc: ConfigDoc)
    requires forall x :: x in rows ==> HasRow(x) && x.row < SlotCount
    ensures var e := rows + [Saved(doc)];
            && SaveCount(e) == 1
            && forall k :: 0 <= k < |e| - 1 ==> HasRow(e[k]) && e[k].row < SlotCount
  {
    var e := rows + [Saved(doc)];
    NoSavesInRows(rows);
    SaveCountAppend(rows, [Saved(doc)]);
    assert [Saved(doc)][1..] == [];
    forall k | 0 <= k < |e| - 1
      ensures HasRow(e[k]) && e[k].row < SlotCount
    {
      assert e[k] == rows[k] && rows[k] in rows;
    }
  }

  /** A trace of row effects saves nothing. */
  lemma {:induction false} NoSavesInRows(effects: seq<Effect>)
    requires forall x :: x in effects ==> HasRow(x)
    ensures SaveCount(effects) == 0
  {
    if effects != [] {
      assert effects[0] in effects;
      NoSavesInRows(effects[1..]);
    }
  }

  /** Rows are handled strictly in index order: every effect of a row comes
      before every effect of a later row. */
  lemma LaunchInRowOrder(slots: seq<Slot>, os: Os)
    ensures InRowOrder(LaunchEffects(slots, os))
  {
    FlattenInRowOrder(PerRow(slots, os), 0);
  }

  /** Every checked, non-blank row is attempted, whatever happened to the
      rows before it. */
  lemma LaunchReachesRow(slots: seq<Slot>, os: Os, i: nat)
    requires i < |slots|
    requires Attempt(slots[i], os).Some?
    ensures Called(i, Attempt(slots[i], os).value) in LaunchEffects(slots, os)
  {
    var parts := PerRow(slots, os);
    assert parts[i][0] in parts[i];
    FlattenContains(parts, 0, i, parts[i][0]);
  }

  /** An unchecked or blank row produces no effect at all. */
  lemma LaunchSkipsRow(slots: seq<Slot>, os: Os, i: nat)
    requires i < |slots|
    requires Attempt(slots[i], os).None?
    ensures forall x :: x in LaunchEffects(slots, os) ==> x.row != i
  {
  }

  /** A row whose call raises gets exactly one error dialog; every other
      row gets none. */
  lemma LaunchErrorsPerRow(slots: seq<Slot>, os: Os, i: nat)
    ensures CountErrors(LaunchEffects(slots, os), i) ==
              (if i < |slots| && RowFails(slots[i], os) then 1 else 0)
  {
    FlattenErrors(PerRow(slots, os), 0, i);
  }

  /** With no row checked nothing is launched, but the file is still saved. */
  lemma NothingCheckedOnlySaves(w: World, os: Os)
    requires Valid(w)
    requires forall i :: 0 <= i < SlotCount ==> !w.slots[i].checked
    ensures LaunchSelected(w, os).effects == [Saved(Snapshot(w.slots))]
  {
    FlattenEmpty(PerRow(w.slots, os), 0);
  }

  /** Five checked rows where only row 2 fails: row 2 shows one error
      dialog, the others none, and rows 3 and 4 are still launched. */
  lemma MiddleFailureDoesNotStopBatch(w: World, os: Os)
    requires Valid(w)
    requires forall i :: 0 <= i < SlotCount ==> Attempt(w.slots[i], os).Some?
    requires forall i :: 0 <= i < SlotCount ==> (RowFails(w.slots[i], os) <==> i == 2)
    ensures var e := LaunchEffects(w.slots, os);
            && CountErrors(e, 2) == 1
            && CountErrors(e, 0) == 0 && CountErrors(e, 1) == 0
            && CountErrors(e, 3) == 0 && CountErrors(e, 4) == 0
            && Called(3, Attempt(w.slots[3], os).value) in e
            && Called(4, Attempt(w.slots[4], os).value) in e
  {
    LaunchErrorsPerRow(w.slots, os, 0);
    LaunchErrorsPerRow(w.slots, os, 1);
    LaunchErrorsPerRow(w.slots, os, 2);
    LaunchErrorsPerRow(w.slots, os, 3);
    LaunchErrorsPerRow(w.slots, os, 4);
    LaunchReachesRow(w.slots, os, 3);
    LaunchReachesRow(w.slots, os, 4);
  }
}

=== FILE: events.dfy ===
/**
 * The window's event loop: every user action, and the arrival of a Steam
 * lookup's result, is one event handled to completion before the next.
 * Lookup results carry no ordering guarantee, so they are events like any
 * other and may interleave with the user's actions in any order.
 */
module Events {
  import opened Wrappers
  import opened Strings
  import opened LauncherState
  import opened SteamApi
  import opened Labels
  import opened PanelOps
  import opened Dispatch

  datatype Event =
    | ChoseFile(row: nat, choice: string)                      // "Browse" and the dialog's answer
    | PressedEnter(row: nat)                                   // Enter in a path field
    | Toggled(row: nat)                                        // a click on a check box
    | Typed(row: nat, text: string)                            // a path field edited by hand; `text` is its new content
    | ClickedLaunch(os: Os)                                    // "Launch Selected" against the machine's state
    | ClickedClear                                             // "Clear All"
    | LookupReturned(row: nat, appid: string, resp: Response)  // a background lookup finished

  /** Events the window can produce: rows are the five on screen. */
  predicate Admissible(e: Event) {
    (e.ChoseFile? || e.PressedEnter? || e.Toggled? || e.Typed? || e.LookupReturned?) ==> e.row < SlotCount
  }

  /** The configuration file as this program writes it: absent, or five
      entries and five flags. */
  predicate WellShaped(c: ConfigFile) {
    c.Absent? || (c.Stored? && |c.doc.entries| == SlotCount && |c.doc.checked| == SlotCount)
  }

  /** What holds of the window between events: five rows, each showing a
      non-empty label. */
  predicate Shown(w: World) {
    Valid(w) && forall i :: 0 <= i < SlotCount ==> w.slots[i].caption != ""
  }

  /** Events that write or remove the configuration file. */
  predicate Writes(e: Event) {
    (e.ChoseFile? && e.choice != "") || e.PressedEnter? || e.ClickedLaunch? || e.ClickedClear?
  }

  /** Handling one event. `show` is Python's `str` for a non-string name. */
  function Handle(w: World, e: Event, show: Json -> string): (s: Step)
    requires Shown(w) && Admissible(e)
    ensures Shown(s.world)
    ensures WellShaped(w.config) ==> WellShaped(s.world.config)
    ensures Writes(e) ==> WellShaped(s.world.config)
  {
    match e
    case ChoseFile(i, choice) => BrowseKeepsShape(w, i, choice); Browse(w, i, choice)
    case PressedEnter(i) => EnterKeepsShape(w, i); EnterPressed(w, i)
    case Toggled(i) => Toggle(w, i)
    case Typed(i, text) => Edit(w, i, text)
    case ClickedLaunch(os) => LaunchSelected(w, os)
    case ClickedClear => ClearAll(w)
    case LookupReturned(i, appid, resp) => LookupKeepsShape(w, i, appid, resp, show); CompleteLookup(w, i, appid, resp, show)
  }

  /** "Browse" keeps the labels shown and, unless cancelled, writes a
      five-entry file. */
  lemma BrowseKeepsShape(w: World, i: nat, choice: string)
    requires Shown(w) && i < SlotCount
    ensures var s := Browse(w, i, choice).world;
            Shown(s) && (choice != "" || WellShaped(w.config) ==> WellShaped(s.config))
  {
    if choice != "" {
      var s := Browse(w, i, choice).world;
      assert s.slots[i].caption == LabelFor(choice).caption;
    }
  }

  /** Enter keeps the labels shown and writes a five-entry file. */
  lemma EnterKeepsShape(w: World, i: nat)
    requires Shown(w) && i < SlotCount
    ensures var s := EnterPressed(w, i).world;
            Shown(s) && WellShaped(s.config)
  {
    var s := EnterPressed(w, i).world;
    assert s.slots[i].caption == LabelFor(Strip(w.slots[i].text)).caption;
  }

  /** A returning lookup keeps the labels shown and the file as it was. */
  lemma LookupKeepsShape(w: World, i: nat, appid: string, resp: Response, show: Json -> string)
    requires Shown(w) && i < SlotCount
    ensures var s := CompleteLookup(w, i, appid, resp, show).world;
            Shown(s) && s.config == w.config
  {
  }

  /** Handling a sequence of events in order; the effects are concatenated. */
  function Run(w: World, events: seq<Event>, show: Json -> string): (s: Step)
    requires Shown(w)
    requires forall k :: 0 <= k < |events| ==> Admissible(events[k])
    decreases |events|
    ensures Shown(s.world)
    ensures WellShaped(w.config) ==> WellShaped(s.world.config)
  {
    if events == [] then Step(w, [])
    else
      var first := Handle(w, events[0], show);
      var rest := Run(first.world, events[1..], show);
      Step(rest.world, first.effects + rest.effects)
  }

  /** Running a non-empty sequence is handling its first event and then
      running the rest. */
  lemma RunUnfolds(w: World, events: seq<Event>, show: Json -> string)
    requires Shown(w) && events != []
    requires forall k :: 0 <= k < |events| ==> Admissible(events[k])
    ensures var first := Handle(w, events[0], show);
            var rest := Run(first.world, events[1..], show);
            Run(w, events, show) == Step(rest.world, first.effects + rest.effects)
  {
  }

  /** The window as the user first sees it: built, then loaded from the file. */
  function Startup(config: ConfigFile): (s: Step)
    ensures Shown(s.world) && s.world.config == config
  {
    var w := Fresh(config);
    LoadKeepsShown(w);
    Load(w)
  }

  /** Closing the launcher and opening it again: a window started from
      what `save_config` wrote shows every row's text and check box as
      they were, each labelled from its text. */
  lemma StartupRestoresSave(w: World)
    requires Valid(w)
    ensures var s := Startup(Stored(Snapshot(w.slots))).world;
            forall j :: 0 <= j < SlotCount ==>
              s.slots[j] == Slot(w.slots[j].text, w.slots[j].checked, LabelFor(w.slots[j].text).caption)
  {
    SaveThenLoadRestores(w);
  }

  /** "Clear All" removes the file, so after a restart every row is as in
      a fresh install: empty, unchecked, "(Nothing selected)" — not the
      "(No file selected)" the cleared window showed. */
  lemma ClearThenRestartIsFresh(w: World)
    ensures Startup(ClearAll(w).world.config).world == Fresh(Absent)
    ensures forall i :: 0 <= i < SlotCount ==>
              Startup(ClearAll(w).world.config).world.slots[i].caption == NothingSelected
  {
  }

  /** A fresh install can launch: type a path into the first row, tick its
      box, click "Launch Selected", and the row's call is made. */
  lemma FreshInstallCanLaunch(text: string, os: Os, show: Json -> string)
    requires Strip(text) != ""
    ensures var w0 := Startup(Absent).world;
            var w1 := Handle(w0, Typed(0, text), show).world;
            var w2 := Handle(w1, Toggled(0), show).world;
            Called(0, Call(Strip(text), os)) in Handle(w2, ClickedLaunch(os), show).effects
  {
    var w := Startup(Absent).world;
    assert !w.slots[0].checked;
    TypedThenLaunched(w, 0, text, os, show);
  }

  /** Typing a path into an unticked row, ticking it and clicking
      "Launch Selected" makes the call for the typed text, while the row's
      label still describes what the row held before. */
  lemma TypedThenLaunched(w: World, i: nat, text: string, os: Os, show: Json -> string)
    requires Shown(w) && i < SlotCount && !w.slots[i].checked && Strip(text) != ""
    ensures var w1 := Handle(w, Typed(i, text), show).world;
            var w2 := Handle(w1, Toggled(i), show).world;
            && w2.slots[i].caption == w.slots[i].caption
            && Called(i, Call(Strip(text), os)) in Handle(w2, ClickedLaunch(os), show).effects
  {
    var h0 := Handle(w, Typed(i, text), show);
    assert h0 == Edit(w, i, text);
    var h1 := Handle(h0.world, Toggled(i), show);
    assert h1 == Toggle(h0.world, i);
    assert Handle(h1.world, ClickedLaunch(os), show) == LaunchSelected(h1.world, os);
    assert Attempt(h1.world.slots[i], os) == Some(Call(Strip(text), os));
    LaunchReachesRow(h1.world.slots, os, i);
  }

  /** Loading keeps every label non-empty: loaded rows get a derived label,
      and the others keep theirs. */
  lemma LoadKeepsShown(w: World)
    requires Shown(w)
    ensures Shown(Load(w).world)
  {
    if w.config.Stored? {
      var s := Load(w);
      var f := LoadedCount(w.config.doc);
      forall i | 0 <= i < SlotCount
        ensures s.world.slots[i].caption != ""
      {
        if i < f {
          assert s.world.slots[i] == LoadedSlot(w.slots[i], w.config.doc, i);
        } else if i == f && f < LoadLimit(w.config.doc) {
          assert s.world.slots[i].caption == w.slots[i].caption;
        } else {
          assert s.world.slots[i] == w.slots[i];
        }
      }
    }
  }

  /** A lookup that returns after its row was given another path still
      overwrites that row's label: results are not matched to the row's
      current text. */
  lemma StaleLookupOverwrites(w: World, i: nat, choice: string, appid: string, resp: Response, show: Json -> string)
    requires Valid(w) && i < SlotCount && choice != ""
    ensures var s := CompleteLookup(Browse(w, i, choice).world, i, appid, resp, show).world;
            s.slots[i].text == choice
            && s.slots[i].caption == LookupLabel(appid, GetSteamAppName(appid, resp), show)
  {
  }

  /** Dropping the first event shifts every later one down by one. */
  lemma TailIndex(events: seq<Event>, k: nat)
    requires 0 < k < |events|
    ensures events[1..][k - 1] == events[k]
  {
  }

  /** Once the program has written or removed the file, it stays absent
      or holds exactly five entries and five flags, whatever follows. */
  lemma {:induction false} FileStaysWellShaped(w: World, events: seq<Event>, show: Json -> string, k: nat)
    requires Shown(w)
    requires forall j :: 0 <= j < |events| ==> Admissible(events[j])
    requires k < |events| && Writes(events[k])
    decreases k
    ensures WellShaped(Run(w, events, show).world.config)
  {
    var first := Handle(w, events[0], show);
    var later := events[1..];
    RunUnfolds(w, events, show);
    if k == 0 {
      assert Writes(events[0]);
    } else {
      TailIndex(events, k);
      FileStaysWellShaped(first.world, later, show, k - 1);
    }
  }
}

=== FILE: labels.dfy ===
/**
 * The row label: `update_app_label` derives it from a path, and for a
 * Steam link `async_steam_lookup` later overwrites the placeholder with the
 * store's answer. The lookup's thread and the hand-off through `root.after`
 * are not modelled: starting a lookup is a `StartLookup` effect, and its
 * completion is a separate event, `CompleteLookup`, that may arrive at any
 * later point.
 */
module Labels {
  import opened Wrappers
  import opened Strings
  import opened NtPath
  import opened SteamApi
  import opened LauncherState

  /** Paths with this prefix launch a Steam game and get a looked-up label. */
  const SteamRunPrefix := "steam://rungameid/"

  /** A label together with the app ID to look up, if any. */
  datatype Labelled = Labelled(caption: string, lookup: Option<string>)

  /** `update_app_label(index, path)`: the label shown at once, and the
      app ID (the last "/"-separated segment) handed to a background lookup
      for a Steam link. */
  function LabelFor(path: string): (r: Labelled)
    ensures r.caption != ""
    ensures path == "" ==> r == Labelled(NothingSelected, None)
    ensures r.lookup.Some? <==> StartsWith(path, SteamRunPrefix)
    ensures r.lookup.Some? ==> r.caption == FetchingSteamName && r.lookup.value == AfterLast(path, {'/'})
    ensures r.lookup.None? && path != "" ==>
              r.caption == Basename(path) || (Basename(path) == "" && r.caption == NoFileSelected)
  {
    if path == "" then Labelled(NothingSelected, None)
    else if StartsWith(path, SteamRunPrefix) then
      Labelled(FetchingSteamName, Some(AfterLast(path, {'/'})))
    else
      var name := Basename(path);
      Labelled(if name == "" then NoFileSelected else name, None)
  }

  /** A plain path is labelled with its final component: the file or
      folder name after the last separator. */
  lemma PlainPathLabel(dir: string, sep: char, name: string)
    requires dir != [] && name != []
    requires sep in Separators
    requires forall j :: 0 <= j < |name| ==> name[j] !in Separators
    requires !StartsWith(dir + [sep] + name, SteamRunPrefix)
    ensures LabelFor(dir + [sep] + name) == Labelled(name, None)
  {
    BasenameOfJoin(dir, sep, name);
  }

  /** A path that ends in a separator, such as a bare drive root, has no
      final component and falls back to "(No file selected)". */
  lemma RootPathLabel(dir: string, sep: char)
    requires sep in Separators
    requires !StartsWith(dir + [sep], SteamRunPrefix)
    ensures LabelFor(dir + [sep]).caption == NoFileSelected
  {
    var p := dir + [sep];
    var d := DriveLength(p);
    assert p[d..][|p[d..]| - 1] == sep;
  }

  /** A Steam link shows the placeholder and looks up the ID after the
      last "/". */
  lemma SteamLinkLabel(appid: string)
    requires forall j :: 0 <= j < |appid| ==> appid[j] != '/'
    ensures LabelFor(SteamRunPrefix + appid) == Labelled(FetchingSteamName, Some(appid))
  {
    var p := SteamRunPrefix + appid;
    assert p[..|SteamRunPrefix|] == SteamRunPrefix;
    var front := "steam://rungameid";
    assert p == front + ['/'] + appid;
    AfterLastOfJoin(front, '/', appid, {'/'});
  }

  /** The effect `update_app_label` has beyond the label: starting a
      lookup for a Steam link. */
  function LookupEffects(row: nat, l: Labelled): (e: seq<Effect>)
    ensures |e| <= 1
    ensures e != [] <==> l.lookup.Some?
    ensures e != [] ==> e == [StartLookup(row, l.lookup.value)]
    ensures forall x :: x in e ==> x.StartLookup? && x.row == row
  {
    if l.lookup.Some? then [StartLookup(row, l.lookup.value)] else []
  }

  /** `update_app_label` applied to row `i` of the panel. */
  function Relabel(slots: seq<Slot>, i: nat, path: string): (r: (seq<Slot>, seq<Effect>))
    requires i < |slots|
    ensures |r.0| == |slots|
    ensures r.0[i] == slots[i].(caption := LabelFor(path).caption)
    ensures forall j :: 0 <= j < |slots| && j != i ==> r.0[j] == slots[j]
    ensures r.1 == LookupEffects(i, LabelFor(path))
  {
    var l := LabelFor(path);
    (slots[i := slots[i].(caption := l.caption)], LookupEffects(i, l))
  }

  /** The completion of a lookup, run on the window's thread: row `i` gets
      the label for what the store answered, whatever the row holds by
      then; nothing else changes. */
  function CompleteLookup(w: World, i: nat, appid: string, resp: Response, show: Json -> string): (s: Step)
    requires i < |w.slots|
    ensures s.effects == [] && s.world.config == w.config
    ensures |s.world.slots| == |w.slots|
    ensures forall j :: 0 <= j < |w.slots| && j != i ==> s.world.slots[j] == w.slots[j]
    ensures s.world.slots[i].text == w.slots[i].text && s.world.slots[i].checked == w.slots[i].checked
    ensures s.world.slots[i].caption != FetchingSteamName
    ensures s.world.slots[i].caption == LookupLabel(appid, GetSteamAppName(appid, resp), show)
    ensures resp.Failed? ==> s.world.slots[i].caption == SteamAppPrefix + appid
  {
    var caption := LookupLabel(appid, GetSteamAppName(appid, resp), show);
    Step(w.(slots := w.slots[i := w.slots[i].(caption := caption)]), [])
  }

  /** A Windows executable path, `C:\Games\app.exe`. */
  lemma ExecutableLabelExample()
    ensures LabelFor("C:\\Games" + "\\" + "app.exe") == Labelled("app.exe", None)
  {
    var dir, name := "C:\\Games", "app.exe";
    assert !StartsWith(dir + ['\\'] + name, SteamRunPrefix) by {
      assert (dir + ['\\'] + name)[0] != SteamRunPrefix[0];
    }
    PlainPathLabel(dir, '\\', name);
  }

  /** A Steam link, `steam://rungameid/440`. */
  lemma SteamLabelExample()
    ensures LabelFor("steam://rungameid/440") == Labelled(FetchingSteamName, Some("440"))
  {
    SteamLinkLabel("440");
    assert "steam://rungameid/440" == SteamRunPrefix + "440";
  }
}

=== FILE: ntpath.dfy ===
/**
 * The Windows flavour of `os.path` the launcher relies on (it launches
 * with `os.startfile`, which exists only on Windows): `basename` and
 * `dirname`. A drive is any character followed by ':' at the start of a
 * path; UNC share prefixes are not modelled. `dirname` follows Python
 * 3.11 and earlier, which split off the drive and then strip every
 * trailing separator from the head unless the head is all separators;
 * from Python 3.12 on, `splitroot` keeps exactly one root separator.
 */
module NtPath {
  import opened Strings

  /** Both slashes separate path components on Windows. */
  const Separators: set<char> := {'/', '\\'}

  /** Length of the drive prefix `splitdrive` peels off: two characters
      when the second one is a colon, none otherwise. */
  function DriveLength(p: string): (d: nat)
    ensures d <= |p|
    ensures d == 0 || d == 2
    ensures d == 2 <==> |p| >= 2 && p[1] == ':'
  {
    if |p| >= 2 && p[1] == ':' then 2 else 0
  }

  /** `os.path.basename(p)`: the final component, after the drive and the
      last separator; empty when the path ends in a separator. */
  function Basename(p: string): (r: string)
    ensures |r| <= |p| && r == p[|p| - |r|..]
    ensures forall j :: 0 <= j < |r| ==> r[j] !in Separators
    ensures DriveLength(p) + |r| < |p| ==> p[|p| - |r| - 1] in Separators
    ensures DriveLength(p) + |r| <= |p|
  {
    AfterLast(p[DriveLength(p)..], Separators)
  }

  /** How much of `p` `dirname` keeps when the final component starts at
      `n`: the drive and the head `p[d..n]`, minus the head's trailing
      separators unless the head is nothing but separators (a root). */
  function KeptLength(p: string, n: nat): (k: nat)
    requires DriveLength(p) <= n <= |p|
    ensures DriveLength(p) <= k <= n
    ensures forall j :: k <= j < n ==> p[j] in Separators
    ensures DriveLength(p) < k && p[k - 1] in Separators ==>
              forall j :: DriveLength(p) <= j < k ==> p[j] in Separators
    ensures (forall j :: DriveLength(p) <= j < n ==> p[j] in Separators) ==> k == n
  {
    var d := DriveLength(p);
    var head := p[d..n];
    var t := TrailingIn(head, Separators);
    assert forall j :: d <= j < n ==> p[j] == head[j - d];
    if t == n - d then
      assert forall j :: d <= j < n ==> p[j] in Separators;
      n
    else
      assert p[n - t - 1] == head[|head| - t - 1];
      assert p[n - t - 1] !in Separators;
      n - t
  }

  /** `os.path.dirname(p)`: the drive, then everything before the final
      component with trailing separators removed (kept when the head is
      nothing but separators, as for a root). */
  function Dirname(p: string): (r: string)
    ensures |r| <= |p| && r == p[..|r|]
    ensures |r| + |Basename(p)| <= |p|
    ensures forall j :: |r| <= j < |p| - |Basename(p)| ==> p[j] in Separators
    ensures DriveLength(p) <= |r|
    ensures DriveLength(p) < |r| && p[|r| - 1] in Separators ==>
              forall j :: DriveLength(p) <= j < |r| ==> p[j] in Separators
    ensures (forall j :: DriveLength(p) <= j < |p| - |Basename(p)| ==> p[j] in Separators) ==>
              |r| == |p| - |Basename(p)|
  {
    p[..KeptLength(p, |p| - |Basename(p)|)]
  }

  /** A path ending in `sep` + `name` has basename `name`. */
  lemma BasenameOfJoin(dir: string, sep: char, name: string)
    requires dir != []
    requires sep in Separators
    requires forall j :: 0 <= j < |name| ==> name[j] !in Separators
    ensures Basename(dir + [sep] + name) == name
  {
    var p := dir + [sep] + name;
    var d := DriveLength(p);
    assert d == DriveLength(dir);
    assert p[d..] == dir[d..] + [sep] + name;
    AfterLastOfJoin(dir[d..], sep, name, Separators);
  }

  /** Joining a directory that does not end in a separator with a name
      and taking `dirname` gives the directory back. */
  lemma DirnameOfJoin(dir: string, sep: char, name: string)
    requires DriveLength(dir) < |dir|
    requires dir[|dir| - 1] !in Separators
    requires sep in Separators
    requires forall j :: 0 <= j < |name| ==> name[j] !in Separators
    ensures Dirname(dir + [sep] + name) == dir
  {
    var p := dir + [sep] + name;
    var r := Dirname(p);
    assert DriveLength(p) == DriveLength(dir);
    BasenameOfJoin(dir, sep, name);
    assert p[|dir|] == sep && p[|dir| - 1] == dir[|dir| - 1];
    assert |r| == |dir|;
    assert r == p[..|dir|] == dir;
  }

  /** Directly under a drive root the root's separator is kept: the
      dirname of `C:\x` is `C:\`, not `C:`. */
  lemma DirnameUnderDriveRoot(drive: char, sep: char, name: string)
    requires sep in Separators
    requires forall j :: 0 <= j < |name| ==> name[j] !in Separators
    ensures Dirname([drive, ':'] + [sep] + name) == [drive, ':', sep]
  {
    var p := [drive, ':'] + [sep] + name;
    BasenameOfJoin([drive, ':'], sep, name);
    assert DriveLength(p) == 2 && p[2] == sep;
    assert |Dirname(p)| == 3;
  }
}

=== FILE: panel.dfy ===
/**
 * The panel's own user actions: choosing a file with "Browse", pressing
 * Enter in a path field, "Clear All", and loading the configuration at
 * start-up. Each is a step from one world to the next plus its effects.
 */
module PanelOps {
  import opened Strings
  import opened LauncherState
  import opened Labels

  /** The label, check box and text "Clear All" leaves in every row. */
  const ClearedSlot := Slot("", false, NoFileSelected)

  /** The shared tail of "Browse" and Enter: row `i`'s field holds `text`,
      its label is derived from `path`, and the configuration is saved. */
  function Commit(w: World, i: nat, text: string, path: string): (s: Step)
    requires Valid(w) && i < SlotCount
    ensures Valid(s.world)
    ensures s.world.slots[i] == Slot(text, w.slots[i].checked, LabelFor(path).caption)
    ensures forall j :: 0 <= j < SlotCount && j != i ==> s.world.slots[j] == w.slots[j]
    ensures s.world.config == Stored(Snapshot(s.world.slots))
    ensures s.effects == LookupEffects(i, LabelFor(path)) + [Saved(Snapshot(s.world.slots))]
    ensures SaveCount(s.effects) == 1
  {
    var (slots, lookups) := Relabel(w.slots[i := w.slots[i].(text := text)], i, path);
    var saved := SaveConfig(World(slots, w.config));
    assert SaveCount(lookups + saved.effects) == 1 by {
      SaveCountAppend(lookups, saved.effects);
      assert saved.effects[1..] == [];
      if lookups != [] {
        assert lookups[1..] == [];
      }
    }
    Step(saved.world, lookups + saved.effects)
  }

  /** `browse_file(index)` with the dialog's answer `choice`; a cancelled
      dialog answers with the empty string. */
  function Browse(w: World, i: nat, choice: string): (s: Step)
    requires Valid(w) && i < SlotCount
    ensures choice == "" ==> s == Step(w, [])
    ensures choice != "" ==>
              && Valid(s.world)
              && s.world.slots[i] == Slot(choice, w.slots[i].checked, LabelFor(choice).caption)
              && (forall j :: 0 <= j < SlotCount && j != i ==> s.world.slots[j] == w.slots[j])
              && s.world.config == Stored(Snapshot(s.world.slots))
              && s.effects == LookupEffects(i, LabelFor(choice)) + [Saved(Snapshot(s.world.slots))]
              && SaveCount(s.effects) == 1
  {
    if choice == "" then Step(w, []) else Commit(w, i, choice, choice)
  }

  /** `on_entry_enter(event, index)`: the label follows the stripped text,
      while the field, and so the saved entry, keeps the raw text. */
  function EnterPressed(w: World, i: nat): (s: Step)
    requires Valid(w) && i < SlotCount
    ensures Valid(s.world)
    ensures s.world.slots[i] == w.slots[i].(caption := LabelFor(Strip(w.slots[i].text)).caption)
    ensures forall j :: 0 <= j < SlotCount && j != i ==> s.world.slots[j] == w.slots[j]
    ensures s.world.config == Stored(Snapshot(s.world.slots))
    ensures |s.world.config.doc.entries| == SlotCount && s.world.config.doc.entries[i] == w.slots[i].text
    ensures s.effects == LookupEffects(i, LabelFor(Strip(w.slots[i].text))) + [Saved(s.world.config.doc)]
    ensures SaveCount(s.effects) == 1
  {
    var s := Commit(w, i, w.slots[i].text, Strip(w.slots[i].text));
    assert s.world.config.doc.entries[i] == s.world.slots[i].text;
    s
  }

  /** `clear_all()`: every row emptied, unchecked and labelled
      "(No file selected)"; the file is removed and not written again. */
  function ClearAll(w: World): (s: Step)
    ensures Valid(s.world)
    ensures forall i :: 0 <= i < SlotCount ==> s.world.slots[i] == ClearedSlot
    ensures s.world.config == Absent
    ensures s.effects == []
  {
    Step(World(seq(SlotCount, _ => ClearedSlot), Absent), [])
  }

  /** Clicking row `i`'s check box: tkinter flips the row's `BooleanVar`
      and runs no callback, so nothing is relabelled or saved. */
  function Toggle(w: World, i: nat): (s: Step)
    requires Valid(w) && i < SlotCount
    ensures Valid(s.world) && s.world.config == w.config && s.effects == []
    ensures s.world.slots[i].checked != w.slots[i].checked
    ensures s.world.slots[i].text == w.slots[i].text && s.world.slots[i].caption == w.slots[i].caption
    ensures forall j :: 0 <= j < SlotCount && j != i ==> s.world.slots[j] == w.slots[j]
  {
    Step(w.(slots := w.slots[i := w.slots[i].(checked := !w.slots[i].checked)]), [])
  }

  /** Editing row `i`'s path field by hand: the field holds `text`
      afterwards. Only `<Return>` is bound, so the label keeps describing
      the old text and nothing is saved. */
  function Edit(w: World, i: nat, text: string): (s: Step)
    requires Valid(w) && i < SlotCount
    ensures Valid(s.world) && s.world.config == w.config && s.effects == []
    ensures s.world.slots[i].text == text
    ensures s.world.slots[i].checked == w.slots[i].checked && s.world.slots[i].caption == w.slots[i].caption
    ensures forall j :: 0 <= j < SlotCount && j != i ==> s.world.slots[j] == w.slots[j]
  {
    Step(w.(slots := w.slots[i := w.slots[i].(text := text)]), [])
  }

  /** Two clicks on the same box leave the window as it was. */
  lemma ToggleTwiceRestores(w: World, i: nat)
    requires Valid(w) && i < SlotCount
    ensures Toggle(Toggle(w, i).world, i) == Step(w, [])
  {
    var s := Toggle(Toggle(w, i).world, i);
    assert s.world.slots == w.slots;
  }

  /** How many rows `load_config` visits: the first five entries at most. */
  function LoadLimit(doc: ConfigDoc): (n: nat)
    ensures n <= SlotCount && n <= |doc.entries|
    ensures n == SlotCount || n == |doc.entries|
  {
    if |doc.entries| < SlotCount then |doc.entries| else SlotCount
  }

  /** How many rows `load_config` completes before `checked[i]` is missing. */
  function LoadedCount(doc: ConfigDoc): (f: nat)
    ensures f <= LoadLimit(doc) && f <= |doc.checked|
    ensures f == LoadLimit(doc) || f == |doc.checked|
  {
    if |doc.checked| < LoadLimit(doc) then |doc.checked| else LoadLimit(doc)
  }

  /** Row `j` after `load_config` completed it: the entry is inserted at the
      front of the field, the box takes the stored flag, and the label
      follows the entry. */
  function LoadedSlot(prev: Slot, doc: ConfigDoc, j: nat): Slot
    requires j < |doc.entries| && j < |doc.checked|
  {
    Slot(doc.entries[j] + prev.text, doc.checked[j], LabelFor(doc.entries[j]).caption)
  }

  /** The lookups `load_config` starts while loading rows `i` up to `f`:
      one for each row whose entry is a Steam link, in row order. */
  function LoadLookups(doc: ConfigDoc, i: nat, f: nat): (r: seq<Effect>)
    requires i <= f <= |doc.entries|
    decreases f - i
    ensures forall e :: e in r ==>
              && e.StartLookup? && i <= e.row < f
              && StartsWith(doc.entries[e.row], SteamRunPrefix)
              && e.appid == LabelFor(doc.entries[e.row]).lookup.value
    ensures forall j :: i <= j < f && StartsWith(doc.entries[j], SteamRunPrefix) ==>
              StartLookup(j, LabelFor(doc.entries[j]).lookup.value) in r
  {
    if i == f then []
    else LookupEffects(i, LabelFor(doc.entries[i])) + LoadLookups(doc, i + 1, f)
  }

  /** The loop of `load_config` from row `i` on, up to `n`, the row
      count `LoadLimit`; reading a missing `checked[i]` raises after the
      entry was inserted, and the handler prints the failure, so only rows
      before `f`, the `LoadedCount`, are loaded. */
  function LoadRows(slots: seq<Slot>, doc: ConfigDoc, i: nat, n: nat, f: nat): (r: (seq<Slot>, seq<Effect>))
    requires n == LoadLimit(doc) <= |slots| && f == LoadedCount(doc) && i <= f
    decreases n - i
    ensures |r.0| == |slots|
    ensures && (forall j :: 0 <= j < |slots| && (j < i || j >= n || j > f) ==> r.0[j] == slots[j])
            && (forall j :: i <= j < f ==> r.0[j] == LoadedSlot(slots[j], doc, j))
            && (f < n ==> r.0[f] == slots[f].(text := doc.entries[f] + slots[f].text))
            && r.1 == LoadLookups(doc, i, f) + (if f < n then [LoadFailureLogged] else [])
  {
    if i == n then (slots, [])
    else if i == |doc.checked| then
      assert i == f < n;
      (slots[i := slots[i].(text := doc.entries[i] + slots[i].text)], [LoadFailureLogged])
    else
      assert i < f;
      var (loaded, lookups) := LoadRow(slots, doc, i);
      var rest := LoadRows(loaded, doc, i + 1, n, f);
      assert LoadLookups(doc, i, f) == lookups + LoadLookups(doc, i + 1, f);
      (rest.0, lookups + rest.1)
  }

  /** One pass of the loop of `load_config` for a row whose flag exists:
      insert the entry, set the check box, relabel. */
  function LoadRow(slots: seq<Slot>, doc: ConfigDoc, i: nat): (r: (seq<Slot>, seq<Effect>))
    requires i < |slots| && i < |doc.entries| && i < |doc.checked|
    ensures |r.0| == |slots|
    ensures r.0[i] == LoadedSlot(slots[i], doc, i)
    ensures forall j :: 0 <= j < |slots| && j != i ==> r.0[j] == slots[j]
    ensures r.1 == LookupEffects(i, LabelFor(doc.entries[i]))
  {
    var path := doc.entries[i];
    var inserted := slots[i := slots[i].(text := path + slots[i].text)];
    Relabel(inserted[i := inserted[i].(checked := doc.checked[i])], i, path)
  }

  /** `load_config()`. A missing file changes nothing; an unreadable one
      only prints. Otherwise the first `LoadedCount` rows are loaded; if
      `checked` runs out first, the next row keeps its inserted entry but
      not its flag or label, and every later row is untouched. */
  function Load(w: World): (s: Step)
    requires Valid(w)
    ensures Valid(s.world) && s.world.config == w.config
    ensures w.config.Absent? ==> s == Step(w, [])
    ensures w.config.Unreadable? ==> s == Step(w, [LoadFailureLogged])
    ensures w.config.Stored? ==>
              var doc, f := w.config.doc, LoadedCount(w.config.doc);
              && (forall j :: 0 <= j < f ==> s.world.slots[j] == LoadedSlot(w.slots[j], doc, j))
              && (f < LoadLimit(doc) ==> s.world.slots[f] == w.slots[f].(text := doc.entries[f] + w.slots[f].text))
              && (forall j :: f < j < SlotCount ==> s.world.slots[j] == w.slots[j])
              && (f == LoadLimit(doc) ==> forall j :: f <= j < SlotCount ==> s.world.slots[j] == w.slots[j])
              && (LoadFailureLogged in s.effects <==> f < LoadLimit(doc))
              && (forall e :: e in s.effects ==> e == LoadFailureLogged || (e.StartLookup? && e.row < f))
              && (forall j :: 0 <= j < f && StartsWith(doc.entries[j], SteamRunPrefix) ==>
                    StartLookup(j, LabelFor(doc.entries[j]).lookup.value) in s.effects)
              && s.effects == LoadLookups(doc, 0, f) + (if f < LoadLimit(doc) then [LoadFailureLogged] else [])
  {
    match w.config
    case Absent => Step(w, [])
    case Unreadable => Step(w, [LoadFailureLogged])
    case Stored(doc) =>
      var r := LoadRows(w.slots, doc, 0, LoadLimit(doc), LoadedCount(doc));
      LoadTrace(doc, LoadedCount(doc), LoadLimit(doc), r.1);
      Step(w.(slots := r.0), r.1)
  }

  /** What the exact trace of a load implies: the failure message appears
      exactly when loading stopped early, and every other effect is the
      lookup of a loaded Steam row. */
  lemma LoadTrace(doc: ConfigDoc, f: nat, n: nat, t: seq<Effect>)
    requires f <= n && f <= |doc.entries|
    requires t == LoadLookups(doc, 0, f) + (if f < n then [LoadFailureLogged] else [])
    ensures LoadFailureLogged in t <==> f < n
    ensures forall e :: e in t ==> e == LoadFailureLogged || (e.StartLookup? && e.row < f)
    ensures forall j :: 0 <= j < f && StartsWith(doc.entries[j], SteamRunPrefix) ==>
              StartLookup(j, LabelFor(doc.entries[j]).lookup.value) in t
  {
    assert LoadFailureLogged !in LoadLookups(doc, 0, f);
  }

  /** Saving and then loading in a new window restores every row's text and
      check box, and derives each label from the restored text. */
  lemma SaveThenLoadRestores(w: World)
    requires Valid(w)
    ensures var r := Load(Fresh(Stored(Snapshot(w.slots)))).world;
            forall j :: 0 <= j < SlotCount ==>
              r.slots[j] == Slot(w.slots[j].text, w.slots[j].checked, LabelFor(w.slots[j].text).caption)
  {
    var doc := Snapshot(w.slots);
    var blank := Fresh(Stored(doc));
    LoadStoredRows(blank, doc);
    forall j | 0 <= j < SlotCount
      ensures LoadedSlot(blank.slots[j], doc, j) == Slot(w.slots[j].text, w.slots[j].checked, LabelFor(w.slots[j].text).caption)
    {
      LoadedFreshRow(w.slots, j);
    }
  }

  /** Loading a document that covers every row gives each row its entry
      (in front of the field's text), its flag and its label. */
  lemma LoadStoredRows(w: World, doc: ConfigDoc)
    requires Valid(w) && w.config == Stored(doc)
    requires |doc.entries| == SlotCount == |doc.checked|
    ensures forall j :: 0 <= j < SlotCount ==> Load(w).world.slots[j] == LoadedSlot(w.slots[j], doc, j)
  {
    assert LoadedCount(doc) == SlotCount;
  }

  /** A fresh row loaded from a saved row takes back its text and flag. */
  lemma LoadedFreshRow(slots: seq<Slot>, j: nat)
    requires j < |slots|
    ensures LoadedSlot(FreshSlot, Snapshot(slots), j) == Slot(slots[j].text, slots[j].checked, LabelFor(slots[j].text).caption)
  {
    var doc := Snapshot(slots);
    assert doc.entries[j] + FreshSlot.text == slots[j].text;
  }

  /** After "Clear All" there is no file, so loading changes nothing: the
      rows stay cleared. */
  lemma ClearThenLoadStaysCleared(w: World)
    ensures Load(ClearAll(w).world) == Step(ClearAll(w).world, [])
  {
  }

  /** "Clear All" labels rows "(No file selected)", not the
      "(Nothing selected)" a fresh window shows. */
  lemma ClearedDiffersFromFresh(w: World, config: ConfigFile)
    ensures forall i :: 0 <= i < SlotCount ==> ClearAll(w).world.slots[i] != Fresh(config).slots[i]
  {
    assert NoFileSelected[3] != NothingSelected[3];
  }

  /** Pressing Enter in a field holding only whitespace labels the row
      "(Nothing selected)" and keeps the whitespace in the field and file. */
  lemma BlankEntryLabel(w: World, i: nat)
    requires Valid(w) && i < SlotCount
    requires forall j :: 0 <= j < |w.slots[i].text| ==> w.slots[i].text[j] in Whitespace
    ensures EnterPressed(w, i).world.slots[i] == w.slots[i].(caption := NothingSelected)
    ensures EnterPressed(w, i).world.config.doc.entries[i] == w.slots[i].text
  {
  }

  /** A file whose `checked` list is shorter than `entries` loads the rows
      it covers, leaves the entry text in the next row without its flag or
      label, and stops there. */
  lemma ShortCheckedListStopsLoad(w: World, a: string, b: string, c: string)
    requires Valid(w)
    ensures var s := Load(w.(config := Stored(ConfigDoc([a, b, c], [true])))).world.slots;
            && s[0] == Slot(a + w.slots[0].text, true, LabelFor(a).caption)
            && s[1] == w.slots[1].(text := b + w.slots[1].text)
            && s[2] == w.slots[2] && s[3] == w.slots[3] && s[4] == w.slots[4]
  {
    var doc := ConfigDoc([a, b, c], [true]);
    assert LoadLimit(doc) == 3 && LoadedCount(doc) == 1;
  }
}

=== FILE: state.dfy ===
/**
 * The launcher panel as data: five slots (check box, label, path field),
 * the configuration file on disk, and the trace of outside effects the
 * user actions emit in place of calling the operating system, the browser,
 * the network or the console.
 */
module LauncherState {
  import opened Wrappers

  /** The panel always has exactly this many rows. */
  const SlotCount: nat := 5

  /** The label a row shows when the window opens, and for an empty path. */
  const NothingSelected := "(Nothing selected)"
  /** The label for a path without a final component, and after "Clear All". */
  const NoFileSelected := "(No file selected)"

  /** One row: the path field's text, the check box, the label beside it. */
  datatype Slot = Slot(text: string, checked: bool, caption: string)

  /** The JSON document `save_config` writes: `{"entries": [...], "checked": [...]}`.
      A document missing either key reads here as an empty sequence, which
      `load_config` treats the same way. */
  datatype ConfigDoc = ConfigDoc(entries: seq<string>, checked: seq<bool>)

  /** `noksuLauncherConfig.json`: missing, present but not a readable
      document, or a stored document. */
  datatype ConfigFile = Absent | Unreadable | Stored(doc: ConfigDoc)

  /** Everything a user action reads or changes. */
  datatype World = World(slots: seq<Slot>, config: ConfigFile)

  /** The operating-system calls a launch makes: `webbrowser.open`,
      `subprocess.Popen([path], cwd=..., shell=True)`, `os.startfile`. */
  datatype OsCall =
    | OpenUri(uri: string)
    | Spawn(path: string, cwd: Option<string>)
    | StartFile(path: string)

  /** What the launcher does outside its own state, in order. */
  datatype Effect =
    | Called(row: nat, call: OsCall)                           // an OS call for a row
    | Paused(row: nat, seconds: nat)                           // `time.sleep` after a Steam launch
    | ErrorDialog(row: nat, title: string, message: string)    // `messagebox.showerror`
    | StartLookup(row: nat, appid: string)                     // a background Steam-name lookup
    | Saved(doc: ConfigDoc)                                    // `save_config` wrote the file
    | LoadFailureLogged                                        // `load_config` printed its failure

  /** A user action's outcome: the new world and the effects, in order. */
  datatype Step = Step(world: World, effects: seq<Effect>)

  predicate Valid(w: World) {
    |w.slots| == SlotCount
  }

  /** The effects that belong to a row (all but saving and load logging). */
  predicate HasRow(e: Effect) {
    !e.Saved? && !e.LoadFailureLogged?
  }

  /** How many times the trace saves the configuration. */
  function SaveCount(effects: seq<Effect>): nat {
    if effects == [] then 0
    else (if effects[0].Saved? then 1 else 0) + SaveCount(effects[1..])
  }

  /** Counting saves distributes over concatenation of traces. */
  lemma {:induction false} SaveCountAppend(a: seq<Effect>, b: seq<Effect>)
    ensures SaveCount(a + b) == SaveCount(a) + SaveCount(b)
  {
    if a == [] {
      assert a + b == b;
    } else {
      assert (a + b)[1..] == a[1..] + b;
      SaveCountAppend(a[1..], b);
    }
  }

  /** A row as the window builds it: empty, unchecked, "(Nothing selected)". */
  const FreshSlot := Slot("", false, NothingSelected)

  /** The window right after it is built, before the configuration is loaded. */
  function Fresh(config: ConfigFile): (w: World)
    ensures Valid(w) && w.config == config
    ensures forall i :: 0 <= i < SlotCount ==> w.slots[i] == FreshSlot
  {
    World(seq(SlotCount, _ => FreshSlot), config)
  }

  /** The document `save_config` writes: the raw text of every field and
      every check box, in row order. */
  function Snapshot(slots: seq<Slot>): (doc: ConfigDoc)
    ensures |doc.entries| == |slots| && |doc.checked| == |slots|
    ensures forall i :: 0 <= i < |slots| ==> doc.entries[i] == slots[i].text && doc.checked[i] == slots[i].checked
  {
    ConfigDoc(seq(|slots|, i requires 0 <= i < |slots| => slots[i].text),
              seq(|slots|, i requires 0 <= i < |slots| => slots[i].checked))
  }

  /** Two panels save the same document exactly when every row has the same
      text and check box; labels are never saved. */
  lemma SnapshotIgnoresLabels(a: seq<Slot>, b: seq<Slot>)
    requires |a| == |b|
    ensures Snapshot(a) == Snapshot(b) <==>
              forall i :: 0 <= i < |a| ==> a[i].text == b[i].text && a[i].checked == b[i].checked
  {
    if forall i :: 0 <= i < |a| ==> a[i].text == b[i].text && a[i].checked == b[i].checked {
      assert Snapshot(a).entries == Snapshot(b).entries;
      assert Snapshot(a).checked == Snapshot(b).checked;
    }
  }

  /** `save_config()`: overwrite the file with the panel's current document. */
  function SaveConfig(w: World): (s: Step)
    ensures s.world.slots == w.slots
    ensures s.world.config == Stored(Snapshot(w.slots))
    ensures s.effects == [Saved(s.world.config.doc)]
    ensures |w.slots| == SlotCount ==> |s.world.config.doc.entries| == SlotCount == |s.world.config.doc.checked|
  {
    var doc := Snapshot(w.slots);
    Step(w.(config := Stored(doc)), [Saved(doc)])
  }
}

=== FILE: steam_api.dfy ===
/**
 * The Steam store lookup (`get_steam_app_name`) and the label its
 * completion writes (`async_steam_lookup`). The HTTP request is not
 * modelled: its outcome is a `Response`, either a decoded JSON document
 * or a failure (connection error, timeout, undecodable body), which
 * Python's `except Exception` folds into the same `None`.
 */
module SteamApi {
  import opened Wrappers
  import opened Strings

  /** A decoded JSON value, as `json` hands it to Python. Numbers are kept
      as reals; objects keep the last value of a repeated key, as a map. */
  datatype Json =
    | JNull
    | JBool(b: bool)
    | JNum(x: real)
    | JStr(s: string)
    | JArr(items: seq<Json>)
    | JObj(fields: map<string, Json>)

  /** What `requests.get(...).json()` produced. */
  datatype Response = Failed | Received(doc: Json)

  /** Python truthiness of a decoded JSON value. */
  predicate Truthy(v: Json) {
    match v
    case JNull => false
    case JBool(b) => b
    case JNum(x) => x != 0.0
    case JStr(s) => s != ""
    case JArr(items) => |items| > 0
    case JObj(fields) => |fields| > 0
  }

  /** Follows a path of object keys; `None` as soon as a step is not an
      object or lacks the key. */
  function Member(v: Json, path: seq<string>): Option<Json>
    decreases |path|
  {
    if path == [] then Some(v)
    else if v.JObj? && path[0] in v.fields then Member(v.fields[path[0]], path[1..])
    else None
  }

  /** The response reports the app as found: `doc[appid]["success"]` exists
      and is truthy. */
  predicate Succeeded(doc: Json, appid: string) {
    match Member(doc, [appid, "success"])
    case Some(v) => Truthy(v)
    case None => false
  }

  /** `get_steam_app_name(appid)`. A missing app-ID key reads `success`
      from an empty dict; a non-object where a dict is expected, or a
      missing `data`/`name`, raises and is swallowed. The name is returned
      whatever JSON value it is, truthy or not. */
  function GetSteamAppName(appid: string, resp: Response): (r: Option<Json>)
    ensures r.Some? <==>
              resp.Received? && Succeeded(resp.doc, appid)
              && Member(resp.doc, [appid, "data", "name"]).Some?
    ensures r.Some? ==> r == Member(resp.doc, [appid, "data", "name"])
  {
    match resp
    case Failed => None
    case Received(doc) =>
      assert [appid, "success"][1..] == ["success"];
      assert [appid, "data", "name"][1..] == ["data", "name"];
      assert ["data", "name"][1..] == ["name"];
      assert ["success"][1..] == [] && ["name"][1..] == [];
      if !doc.JObj? then None
      else if appid !in doc.fields then None
      else
        var entry := doc.fields[appid];
        assert Member(doc, [appid, "success"]) == Member(entry, ["success"]);
        if !entry.JObj? then None
        else if "success" !in entry.fields || !Truthy(entry.fields["success"]) then None
        else if "data" !in entry.fields then None
        else
          var data := entry.fields["data"];
          if !data.JObj? || "name" !in data.fields then None
          else Some(data.fields["name"])
  }

  /** The store's reply for a known app yields its name. */
  lemma FoundAppYieldsName(appid: string, name: string, other: map<string, Json>)
    ensures
      var details := JObj(map["success" := JBool(true), "data" := JObj(other["name" := JStr(name)])]);
      GetSteamAppName(appid, Received(JObj(map[appid := details]))) == Some(JStr(name))
  {
    var details := JObj(map["success" := JBool(true), "data" := JObj(other["name" := JStr(name)])]);
    var doc := JObj(map[appid := details]);
    assert Member(doc, [appid, "success"]) == Some(JBool(true)) by {
      assert [appid, "success"][1..] == ["success"];
      assert ["success"][1..] == [];
    }
    assert Member(doc, [appid, "data", "name"]) == Some(JStr(name)) by {
      assert [appid, "data", "name"][1..] == ["data", "name"];
      assert ["data", "name"][1..] == ["name"];
      assert ["name"][1..] == [];
    }
  }

  /** A transport failure, a reply without the app-ID key, and a reply whose
      `success` is absent or falsy all yield no name. */
  lemma NoNameWithoutSuccess(appid: string, resp: Response)
    requires resp.Failed? || !Succeeded(resp.doc, appid)
    ensures GetSteamAppName(appid, resp) == None
  {
  }

  /** A reply the store marks `"success": false` yields no name even when it
      carries one. */
  lemma FalseSuccessYieldsNone(appid: string, data: Json)
    ensures GetSteamAppName(appid, Received(JObj(map[appid := JObj(map["success" := JBool(false), "data" := data])]))) == None
  {
    var doc := JObj(map[appid := JObj(map["success" := JBool(false), "data" := data])]);
    assert Member(doc, [appid, "success"]) == Some(JBool(false)) by {
      assert [appid, "success"][1..] == ["success"];
      assert ["success"][1..] == [];
    }
  }

  const SteamSuffix := " (Steam)"
  const SteamAppPrefix := "Steam App "
  /** The placeholder a Steam slot shows while its lookup is in flight. */
  const FetchingSteamName := "Fetching Steam name..."

  /** The text Python's f-string gives a truthy name: the string itself,
      or `show(v)` (Python's `str`) for any other JSON value. */
  function NameText(v: Json, show: Json -> string): string {
    if v.JStr? then v.s else show(v)
  }

  /** The label `async_steam_lookup` posts back: "<name> (Steam)" for a
      truthy name, "Steam App <appid>" otherwise. */
  function LookupLabel(appid: string, name: Option<Json>, show: Json -> string): (r: string)
    ensures name.Some? && Truthy(name.value) ==> r == NameText(name.value, show) + SteamSuffix
    ensures name.Some? && name.value.JStr? && name.value.s != "" ==> r == name.value.s + SteamSuffix
    ensures name.None? || !Truthy(name.value) ==> r == SteamAppPrefix + appid
    ensures r != FetchingSteamName
  {
    var r := if name.Some? && Truthy(name.value) then NameText(name.value, show) + SteamSuffix
             else SteamAppPrefix + appid;
    assert r != FetchingSteamName by {
      if name.Some? && Truthy(name.value) {
        assert r[|r| - 1] == ')';
      } else {
        assert r[0] == 'S';
      }
    }
    r
  }

  /** Whatever the response, the label a completed lookup writes is never
      the in-flight placeholder, and it names the app: either by the
      store's title or by its ID. */
  lemma CompletedLabelIsFinal(appid: string, resp: Response, show: Json -> string)
    ensures var r := LookupLabel(appid, GetSteamAppName(appid, resp), show);
            r != FetchingSteamName
            && (!resp.Received? ==> r == SteamAppPrefix + appid)
  {
  }
}

=== FILE: strings.dfy ===
/**
 * The string operations the launcher takes from Python's `str`:
 * `startswith`, `strip()` and `split(sep)[-1]`.
 */
module Strings {

  /** The characters for which Python's `str.isspace()` holds; `str.strip()`
      with no argument removes exactly these from both ends. */
  const Whitespace: set<char> :=
    { '\t', '\n', '\U{000B}', '\U{000C}', '\r', '\U{001C}', '\U{001D}', '\U{001E}', '\U{001F}',
      ' ', '\U{0085}', '\U{00A0}', '\U{1680}',
      '\U{2000}', '\U{2001}', '\U{2002}', '\U{2003}', '\U{2004}', '\U{2005}',
      '\U{2006}', '\U{2007}', '\U{2008}', '\U{2009}', '\U{200A}',
      '\U{2028}', '\U{2029}', '\U{202F}', '\U{205F}', '\U{3000}' }

  /** `s.startswith(prefix)` */
  predicate StartsWith(s: string, prefix: string) {
    |prefix| <= |s| && s[..|prefix|] == prefix
  }

  /** Length of the longest prefix of `s` made only of characters in `cs`. */
  function LeadingIn(s: string, cs: set<char>): (k: nat)
    ensures k <= |s|
    ensures forall j :: 0 <= j < k ==> s[j] in cs
    ensures k < |s| ==> s[k] !in cs
  {
    if |s| == 0 || s[0] !in cs then 0 else 1 + LeadingIn(s[1..], cs)
  }

  /** Length of the longest suffix of `s` made only of characters in `cs`. */
  function TrailingIn(s: string, cs: set<char>): (k: nat)
    ensures k <= |s|
    ensures forall j :: |s| - k <= j < |s| ==> s[j] in cs
    ensures k < |s| ==> s[|s| - k - 1] !in cs
  {
    if |s| == 0 || s[|s| - 1] !in cs then 0 else 1 + TrailingIn(s[..|s| - 1], cs)
  }

  /** `s` is `r` surrounded by whitespace only, with `r` starting at `a`. */
  ghost predicate PaddedAt(s: string, r: string, a: nat) {
    && a + |r| <= |s|
    && s[a..a + |r|] == r
    && (forall j :: 0 <= j < a ==> s[j] in Whitespace)
    && (forall j :: a + |r| <= j < |s| ==> s[j] in Whitespace)
  }

  /** `s.strip()`: the text with leading and trailing whitespace removed. */
  function Strip(s: string): (r: string)
    ensures r == [] || (r[0] !in Whitespace && r[|r| - 1] !in Whitespace)
    ensures exists a: nat :: PaddedAt(s, r, a)
    ensures r == [] <==> forall j :: 0 <= j < |s| ==> s[j] in Whitespace
  {
    var a := LeadingIn(s, Whitespace);
    var t := s[a..];
    var r := t[..|t| - TrailingIn(t, Whitespace)];
    assert PaddedAt(s, r, a);
    r
  }

  /** Stripping is determined by the characterisation alone: any text that
      neither starts nor ends with whitespace and that pads out to `s` with
      whitespace is `s.strip()`. */
  lemma StripUnique(s: string, r: string, a: nat)
    requires r == [] || (r[0] !in Whitespace && r[|r| - 1] !in Whitespace)
    requires PaddedAt(s, r, a)
    ensures r == Strip(s)
  {
    var r' := Strip(s);
    var a': nat :| PaddedAt(s, r', a');
    if r != [] && r' != [] {
      assert a == a' && |r| == |r'|;
    }
  }

  /** Stripping twice is stripping once. */
  lemma StripIdempotent(s: string)
    ensures Strip(Strip(s)) == Strip(s)
  {
    var r := Strip(s);
    assert PaddedAt(r, r, 0);
    StripUnique(r, r, 0);
  }

  /** `s.split(sep)[-1]` for a set of separators: the text after the last
      separator, or all of `s` when it holds none. */
  function AfterLast(s: string, seps: set<char>): (r: string)
    ensures |r| <= |s| && r == s[|s| - |r|..]
    ensures forall j :: 0 <= j < |r| ==> r[j] !in seps
    ensures |r| < |s| ==> s[|s| - |r| - 1] in seps
  {
    if |s| == 0 || s[|s| - 1] in seps then []
    else AfterLast(s[..|s| - 1], seps) + [s[|s| - 1]]
  }

  /** The last segment is whatever follows a separator and holds none. */
  lemma AfterLastOfJoin(front: string, sep: char, last: string, seps: set<char>)
    requires sep in seps
    requires forall j :: 0 <= j < |last| ==> last[j] !in seps
    ensures AfterLast(front + [sep] + last, seps) == last
  {
    var s := front + [sep] + last;
    var r := AfterLast(s, seps);
    assert s[|front|] == sep;
    assert |r| <= |last|;
    assert |r| >= |last|;
    assert r == s[|s| - |r|..] == last;
  }
}

=== FILE: wrappers.dfy ===
/** Python's `None`-or-value results, as a datatype. */
module Wrappers {

  datatype Option<+T> = None | Some(value: T)
}
